=== FILE: README.md ===
# Language asset resolver — a Dafny model

This project models the language asset loader of a forum application's
internationalisation layer. The loader exists in two copies: the TypeScript
source `src/languages.ts` and a compiled JavaScript variant
`src/languages.js`. Both expose the same four operations:

- `get(language, namespace)` joins `languagesPath/language/namespace.json`.
  It refuses a joined path that does not start with `languagesPath`, and does
  so before reading anything. Otherwise it reads and parses the file,
  substitutes `{}` for a falsy parse, passes `{language, namespace, data}`
  through the `filter:languages.get` hook, and returns the hook result's
  `data` field.
- `listCodes()` returns the installed language codes from `metadata.json`,
  memoised in `codeCache`.
- `list()` returns the complete `{code, name, dir}` descriptors of the
  installed languages, memoised in `listCache`.
- `userTimeagoCode(userLang)` returns the relative-time library's code for a
  language, or `''`.

Model structure:

- `JsValues` holds the JavaScript semantics the loader relies on: values,
  truthiness, property reads, `includes`, `split`, and thrown values. A thrown
  value is either an `Error` carrying an errno `code` or any other value.
- `Paths` holds the sandbox check. `Timeago` derives the list of supported
  relative-time codes. `Seqs` holds `filter` and `map`.
- `Languages` holds the four operations. They are parameterised by `Variant`,
  because the two files differ only in their `catch` blocks:
  - The TypeScript file compares `err.code` with the literal `'EN0ENT'` (with
    a digit zero). A real missing file, whose code is `'ENOENT'`, is
    therefore rethrown.
  - The JavaScript file recognises an `Error` whose code is `'ENOENT'`. A
    thrown value that is not an `Error` falls out of the handler, and the
    function resolves to `undefined`.
- `LanguagesTs` and `LanguagesJs` state what each file's behaviour implies.

Both files are modelled as written. A missing file is meant to be tolerated:
the JavaScript variant returns `[]` for an `'ENOENT'` error
(`src/languages.js:58-61`), and the TypeScript file keeps that very check
commented out beneath its `'EN0ENT'` comparison (`src/languages.ts:63-71`).
The TypeScript code as written does not tolerate it. The model follows
the code, and `LanguagesTs.ListCodesRethrowsMissingMetadata` states the
consequence.

The environment is the `Languages.Env` record. Its fields are:

- the languages directory;
- `path.join`;
- the files on disk, as a map from path to contents or thrown value (a path
  missing from the map rejects with `'ENOENT'`);
- `JSON.parse`;
- the hook;
- `utils.userLangToTimeagoCode`;
- the file names in the relative-time library's locale directory.

The two module-level caches are threaded through as `Languages.Caches`, and
they start as `null` (`Languages.Cold`). Every operation reports the paths it
passes to `readFile`. `Promise.all` over the per-code descriptor loads becomes
an ordered sequential gather.

## Model

| member | source | states |
|---|---|---|
| `Timeago.TimeagoCodesMember` | src/languages.ts:25-27 | a value is a timeago code exactly when some listed file name starting with `jquery.timeago` has it as its third `.`-field |
| `Timeago.TimeagoCodesAppend` | src/languages.js:22-23 | the codes of a directory listing are the codes of its first part followed by those of the rest, so directory order is kept |
| `Timeago.TimeagoCodesOfOneFile` | src/languages.ts:27 | a file not starting with `jquery.timeago` contributes nothing; one that does contributes exactly its third field |
| `Timeago.ThirdField` | src/languages.js:23 | `f.split('.')[2]` is `undefined` exactly when the name has fewer than three fields, and otherwise is the third `.`-separated field, which holds no `.` |
| `Timeago.LocaleFileCode` | src/languages.ts:27 | `jquery.timeago.<c>.js` is a locale file, and its code is `<c>` |
| `JsValues.Split` | src/languages.js:23 | `split` yields at least one piece, and no piece contains the separator |
| `JsValues.JoinSplit` | src/languages.ts:27 | joining the pieces of a split with the separator restores the string |
| `JsValues.SplitJoin` | src/languages.js:23 | splitting a join of separator-free pieces restores the pieces |
| `JsValues.GetProp` | src/languages.ts:47 | a property read throws a `TypeError` exactly on `null`/`undefined`, and otherwise yields the value's member under that key |
| `JsValues.CodeProperty` | src/languages.ts:63 | `err.code` on an `Error` is exactly its errno code as a string, or `undefined` when it carries none; on any other thrown value it is the ordinary property read, which throws a `TypeError` on `null`/`undefined` |
| `JsValues.Includes` | src/languages.ts:111 | `includes` on an array is membership of the string, on a string it is the substring search `Contains`, and a value that is neither an array nor a string throws a `TypeError` |
| `JsValues.ContainsHasOccurrence` | src/languages.js:105 | whenever the string `includes` accepts, the searched text occurs at some index of the string |
| `JsValues.OccurrenceContains` | src/languages.ts:111 | an occurrence of the searched text at any index makes the string `includes` accept, so together with the previous row it is exactly substring occurrence |
| `Seqs.Map` | src/languages.ts:27 | `map` keeps the length and puts the callback's result for the element at each position |
| `JsValues.Truthy` | src/languages.ts:99 | a value is falsy exactly when it is `undefined`, `null`, `false`, `0` or `''` |
| `JsValues.Member` | src/languages.ts:47 | an object's own property reads as its value and a missing one as `undefined`; `length` of a string or array is its size; other keys on non-objects read as `undefined` |
| `JsValues.StartsWith` | src/languages.ts:31 | `startsWith` holds exactly when the string begins with the prefix, character for character |
| `Timeago.TimeagoCodes` | src/languages.ts:27 | every timeago code is the third field of some listed locale file, and there are no more codes than files |
| `Languages.ReadFile` | src/languages.ts:34 | reading a path that does not exist rejects with the `'ENOENT'` error; an existing path yields its recorded outcome |
| `Languages.LoadTranslation` | src/languages.ts:34-47 | read and parse errors propagate unchanged; a hook rejection propagates unchanged; a success means the read, parse and hook succeeded and the result is the `data` member of the hook's non-nullish result, the hook having received the parse or `{}` |
| `Languages.LoadLanguages` | src/languages.ts:56-59 | a missing metadata file rejects with `'ENOENT'`; read and parse errors propagate; a `null` parse throws a `TypeError`; any other parse yields its `languages` member: an object's own field, and `undefined` for a missing field and for an array, string, number or boolean |
| `Languages.IsDescriptor` | src/languages.js:93 | an entry is kept exactly when it is an object whose `code`, `name` and `dir` are present and truthy |
| `Paths.CheckSandbox` | src/languages.ts:30-33 | the joined path is accepted unchanged exactly when it starts with the languages directory, and otherwise `[[error:invalid-path]]` is thrown |
| `Paths.InsidePassesCheck` | src/languages.js:27-29 | every path inside the languages directory passes the guard |
| `Paths.SiblingPrefixPassesCheck` | src/languages.ts:31 | a sibling directory whose name extends the base name passes the guard although it lies outside the directory |
| `Languages.Get` | src/languages.ts:29-48 | an escaping path fails with `[[error:invalid-path]]` and reads nothing; otherwise exactly the joined path is read; every read path starts with the languages directory |
| `Languages.OrEmpty` | src/languages.js:31 | a falsy parse is replaced by `{}`, and a truthy one is kept |
| `Languages.GetReturnsHookData` | src/languages.ts:36-47 | the hook receives the parse, or `{}` if the parse is falsy, and `get` returns exactly the `data` field of the hook's result (a `TypeError` if that result is nullish) |
| `Languages.GetWithoutListeners` | src/languages.js:30-37 | with no listener, `get` returns the parsed file, or `{}` for a falsy parse |
| `Languages.Handle` | src/languages.ts:62-66 | the TypeScript handler recovers exactly when `err.code` is `'EN0ENT'`; the JavaScript handler recovers exactly for an `Error` coded `'ENOENT'` or a non-`Error`, which yields `undefined`; in TypeScript a thrown `null`/`undefined` ends in the `TypeError` of reading its `.code`, and every other error is rethrown unchanged |
| `Languages.Populated` | src/languages.ts:52 | `cache && cache.length`: `null`/`undefined` never count as populated, an array counts exactly when it is non-empty, and a string exactly when it is non-empty |
| `Languages.ListCodes` | src/languages.ts:50-73 | a populated `codeCache` is returned with no read and no change; otherwise `metadata.json` is read once; a successful load is stored in `codeCache` and returned; a failure leaves the caches unchanged and goes through the handler with `[]` |
| `Languages.ListCodesTwiceReadsOnce` | src/languages.ts:52-54 | after a load of a non-empty list, the next call returns the same value with no read |
| `Languages.ListCodesIdempotent` | src/languages.js:48-55 | a second call after a successful load gives the same answer and leaves the caches as they were |
| `Languages.EmptyCodeListIsReloaded` | src/languages.ts:52-61 | an empty loaded list does not count as cached, so the next call reads `metadata.json` again |
| `Languages.LoadDescriptor` | src/languages.ts:85-95 | a string code's `language.json` is read (one read); a successful read and parse gives the parsed value, and a failed read or parse goes through the handler with `undefined`; a non-string code reads nothing and fails in `path.join` |
| `Languages.Gather` | src/languages.ts:84-96 | every string code's descriptor is read; the result is all loaded values in code order exactly when every load succeeds, and otherwise the first failing load's error |
| `Languages.List` | src/languages.ts:76-104 | a populated `listCache` is returned with no read; a fresh success is an array of complete descriptors and becomes `listCache`; a failure leaves `listCache` unchanged; a `listCodes` rejection is `list`'s rejection with the same error; a code list that is not an array throws a `TypeError` at `codes.map` |
| `Languages.ListKeepsCompleteDescriptors` | src/languages.ts:98-103 | when every load succeeds, `list` returns exactly the loaded values with truthy `code`, `name` and `dir`, in code order, and caches that list |
| `Languages.ListFailsOnHardError` | src/languages.js:76-95 | one failing descriptor load makes `list` fail with the first failure's error, without writing `listCache` |
| `Languages.ListTwiceReadsOnce` | src/languages.js:71-73 | a non-empty `list` result is served from the cache on the next call with no read |
| `Languages.UserTimeagoCode` | src/languages.ts:106-115 | for an array of codes, the result is the mapped code when `userLang` is an element and the mapped code is a timeago code, and `''` otherwise; for a string of codes, membership is substring search; any other code value throws a `TypeError`; `listCodes`' failure, cache effect and reads pass through |
| `Languages.UninstalledLanguageMapsToEmpty` | src/languages.js:99-109 | a language that is not installed maps to `''` |
| `Languages.InstalledSupportedLanguageMaps` | src/languages.js:104-107 | an installed language whose mapped code `c` has a `jquery.timeago.<c>.js` locale file maps to `c` |
| `Seqs.Filter` | src/languages.ts:99 | the filter keeps only accepted elements drawn from the input |
| `Seqs.FilterMember` | src/languages.js:93 | an element survives filtering exactly when it is in the input and accepted |
| `Seqs.FilterAppend` | src/languages.ts:98-99 | filtering distributes over concatenation, so input order is kept |
| `LanguagesTs.ListCodesCatch` | src/languages.ts:62-66 | `listCodes` returns `[]` exactly when the thrown code is `'EN0ENT'`; any other `Error` is rethrown; the caches are unchanged |
| `LanguagesTs.ListCodesRethrowsMissingMetadata` | src/languages.ts:55-66 | a missing `metadata.json` is rethrown as the `'ENOENT'` error after one read |
| `LanguagesTs.MissingDescriptorAbortsList` | src/languages.ts:84-96 | a code with a missing `language.json` makes `list` fail without writing `listCache` |
| `LanguagesTs.MisspelledCodeDescriptorIsDropped` | src/languages.ts:90-99 | a descriptor load throwing code `'EN0ENT'` yields `undefined`, which the filter rejects |
| `LanguagesJs.ListCodesCatch` | src/languages.js:57-64 | an `Error` coded `'ENOENT'` gives `[]`; another `Error` is rethrown; a non-`Error` gives `undefined`; the caches are unchanged |
| `LanguagesJs.ListCodesMissingMetadataIsEmpty` | src/languages.js:51-61 | a missing `metadata.json` gives `[]` after one read, with no cache write |
| `LanguagesJs.NonErrorThrowBreaksCallers` | src/languages.js:74-76 | after `listCodes` resolves to `undefined`, `list` and `userTimeagoCode` fail with a `TypeError` |
| `LanguagesJs.MissingDescriptorIsDropped` | src/languages.js:83-93 | a code with a missing `language.json` yields `undefined`, and `list` leaves it out |
| `LanguagesJs.OtherDescriptorErrorAbortsList` | src/languages.js:76-91 | any other `Error` from a descriptor load makes `list` fail without writing `listCache` |

## Left out

- Filesystem I/O is left out. `readFile` is a lookup in `Env.files`, UTF-8
  decoding is left out, and `readdirSync` of the locale directory is replaced
  by the list `Env.localeFiles`. A failure of that listing at module load is
  not modelled.
- `JSON.parse`, `path.join`, `plugins.hooks.fire` and
  `utils.userLangToTimeagoCode` are injected functions. Those modules are not
  part of this model.
- Path normalisation by `path.join` is not modelled. The only property claimed
  for `get` is the literal `startsWith` check, not containment.
- `Languages.Gather`: `Promise.all` rejects with whichever failure happens
  first in time. The model always picks the first failure in code order. It
  also records every read, as `Promise.all` starts every load.
- Two callers racing on a cold cache are not modelled, because operations run
  one after another.
- `console.log` of the code cache is left out. So are the module boilerplate
  (`__awaiter`, `__importDefault`) and the commented-out code.
- `JsValues.Member` models only objects' own data properties and the `length`
  of strings and arrays. These are the only properties the loader reads.
- `NaN` and errno codes that are not strings are not represented.

=== FILE: js_values.dfy ===
/** The fragment of JavaScript's value semantics that the language loader relies
    on: the values `JSON.parse` and the injected collaborators can produce,
    truthiness, property reads, `includes`, `split` and the values a `throw`
    can carry. */
module JsValues {
  import opened Wrappers

  /** A JavaScript value as produced by `JSON.parse` (plus `undefined`).
      Numbers are reals; `NaN` cannot come out of JSON and is not modelled. */
  datatype Value =
    | Undefined
    | Null
    | Bool(b: bool)
    | Num(n: real)
    | Str(s: string)
    | Arr(elems: seq<Value>)
    | Obj(props: map<string, Value>)

  /** What a `throw` (or a rejected promise) carries: an `Error` instance with an
      optional errno `code`, or any other value. */
  datatype Thrown =
    | ErrorInstance(message: string, code: Option<string>)
    | OtherValue(value: Value)

  /** The `TypeError` raised by reading a property of `null`/`undefined` or by
      calling a method a value does not have. */
  const TypeError: Thrown := ErrorInstance("TypeError", None)

  /** JavaScript truthiness: `undefined`, `null`, `false`, `0` and `''` are falsy. */
  predicate Truthy(v: Value)
    ensures !Truthy(v) <==> v in {Undefined, Null, Bool(false), Num(0.0), Str("")}
  {
    match v
    case Undefined => false
    case Null => false
    case Bool(b) => b
    case Num(n) => n != 0.0
    case Str(s) => s != ""
    case Arr(_) => true
    case Obj(_) => true
  }

  predicate Nullish(v: Value) {
    v.Undefined? || v.Null?
  }

  /** `v[key]` on a value that is not `null`/`undefined`. Own data properties of
      objects, and the `length` of strings and arrays; the loader reads no other
      built-in property, so every other key reads as `undefined`. */
  function Member(v: Value, key: string): (r: Value)
    ensures v.Obj? && key in v.props ==> r == v.props[key]
    ensures v.Obj? && key !in v.props ==> r == Undefined
    ensures v.Arr? && key == "length" ==> r == Num(|v.elems| as real)
    ensures v.Str? && key == "length" ==> r == Num(|v.s| as real)
    ensures !v.Obj? && key != "length" ==> r == Undefined
  {
    match v
    case Str(s) => if key == "length" then Num(|s| as real) else Undefined
    case Arr(e) => if key == "length" then Num(|e| as real) else Undefined
    case Obj(p) => if key in p then p[key] else Undefined
    case _ => Undefined
  }

  /** The property read `v.key`, which throws a `TypeError` on `null` and `undefined`. */
  function GetProp(v: Value, key: string): (r: Result<Value, Thrown>)
    ensures r.Failure? <==> Nullish(v)
    ensures r.Failure? ==> r.error == TypeError
    ensures r.Success? ==> r.value == Member(v, key)
  {
    if Nullish(v) then Failure(TypeError) else Success(Member(v, key))
  }

  /** `(err as ErrnoException).code`: the errno code of an `Error`, or a property
      read on any other thrown value (which itself throws on `null`/`undefined`). */
  function CodeProperty(err: Thrown): (r: Result<Value, Thrown>)
    ensures err.ErrorInstance? ==> r.Success? && (r.value.Str? <==> err.code.Some?)
    ensures err.ErrorInstance? ==> r == Success(if err.code.Some? then Str(err.code.value) else Undefined)
    ensures err.OtherValue? ==> r == GetProp(err.value, "code")
  {
    match err
    case ErrorInstance(_, code) =>
      (match code
       case Some(c) => Success(Str(c))
       case None => Success(Undefined))
    case OtherValue(v) => GetProp(v, "code")
  }

  /** `s.startsWith(prefix)`: the first `|prefix|` characters of `s` are `prefix`. */
  predicate StartsWith(s: string, prefix: string)
    ensures StartsWith(s, prefix) <==> |prefix| <= |s| && s[..|prefix|] == prefix
  {
    prefix <= s
  }

  /** `s.includes(x)` on strings: `x` occurs in `s` as a contiguous substring. */
  predicate Contains(s: string, x: string)
    decreases |s|
  {
    x <= s || (|s| > 0 && Contains(s[1..], x))
  }

  /** `x` occurs in `s` starting at index `i`. */
  ghost predicate At(s: string, x: string, i: int) {
    0 <= i <= |s| - |x| && s[i..i + |x|] == x
  }

  /** Whatever `Contains` accepts has an occurrence in `s`. */
  lemma {:induction false} ContainsHasOccurrence(s: string, x: string)
    requires Contains(s, x)
    ensures exists i :: At(s, x, i)
    decreases |s|
  {
    if x <= s {
      assert At(s, x, 0);
    } else {
      ContainsHasOccurrence(s[1..], x);
      var i :| At(s[1..], x, i);
      assert s[i + 1..i + 1 + |x|] == s[1..][i..i + |x|];
      assert At(s, x, i + 1);
    }
  }

  /** Every occurrence of `x` in `s` is found by `Contains`. */
  lemma {:induction false} OccurrenceContains(s: string, x: string, i: int)
    requires At(s, x, i)
    ensures Contains(s, x)
    decreases i
  {
    if i == 0 {
      assert s[..|x|] == x;
    } else {
      assert s[1..][i - 1..i - 1 + |x|] == s[i..i + |x|];
      OccurrenceContains(s[1..], x, i - 1);
    }
  }

  /** `v.includes(x)` for a string `x`: membership on arrays, substring search on
      strings, and a `TypeError` on anything that has no `includes` method. */
  function Includes(v: Value, x: string): (r: Result<bool, Thrown>)
    ensures v.Arr? ==> r == Success(Str(x) in v.elems)
    ensures v.Str? ==> r == Success(Contains(v.s, x))
    ensures !v.Arr? && !v.Str? ==> r == Failure(TypeError)
  {
    match v
    case Arr(e) => Success(Str(x) in e)
    case Str(s) => Success(Contains(s, x))
    case _ => Failure(TypeError)
  }

  /** `s.split(sep)` for a one-character separator: the maximal separator-free
      pieces of `s`, in order, including empty ones. */
  function Split(s: string, sep: char): (parts: seq<string>)
    ensures |parts| >= 1
    ensures forall i :: 0 <= i < |parts| ==> sep !in parts[i]
    decreases |s|
  {
    if |s| == 0 then [""]
    else
      var rest := Split(s[1..], sep);
      if s[0] == sep then [""] + rest
      else [[s[0]] + rest[0]] + rest[1..]
  }

  /** `parts.join(sep)`, the inverse of `Split`. */
  function Join(parts: seq<string>, sep: char): string
    requires |parts| >= 1
  {
    if |parts| == 1 then parts[0] else parts[0] + [sep] + Join(parts[1..], sep)
  }

  /** Joining the pieces of a split gives back the original string. */
  lemma {:induction false} JoinSplit(s: string, sep: char)
    ensures Join(Split(s, sep), sep) == s
    decreases |s|
  {
    if |s| > 0 {
      var rest := Split(s[1..], sep);
      JoinSplit(s[1..], sep);
      if s[0] == sep {
        assert Split(s, sep) == [""] + rest;
        assert Split(s, sep)[1..] == rest;
      } else {
        var parts := Split(s, sep);
        assert parts == [[s[0]] + rest[0]] + rest[1..];
        if |rest| == 1 {
          assert parts == [[s[0]] + rest[0]];
        } else {
          assert parts[1..] == rest[1..];
          assert Join(rest, sep) == rest[0] + [sep] + Join(rest[1..], sep);
        }
      }
    }
  }

  /** Splitting `a + sep + b`, where `a` holds no separator, yields `a` followed
      by the pieces of `b`. */
  lemma {:induction false} SplitAtFirst(a: string, b: string, sep: char)
    requires sep !in a
    ensures Split(a + [sep] + b, sep) == [a] + Split(b, sep)
    decreases |a|
  {
    if |a| == 0 {
      assert a + [sep] + b == [sep] + b;
      assert ([sep] + b)[1..] == b;
    } else {
      SplitAtFirst(a[1..], b, sep);
      assert (a + [sep] + b)[1..] == a[1..] + [sep] + b;
      assert [a[0]] + a[1..] == a;
    }
  }

  /** A separator-free string splits into itself. */
  lemma {:induction false} SplitWithoutSeparator(a: string, sep: char)
    requires sep !in a
    ensures Split(a, sep) == [a]
    decreases |a|
  {
    if |a| > 0 {
      SplitWithoutSeparator(a[1..], sep);
      assert [a[0]] + a[1..] == a;
    }
  }

  /** Splitting the join of separator-free pieces gives back the pieces. */
  lemma {:induction false} SplitJoin(parts: seq<string>, sep: char)
    requires |parts| >= 1
    requires forall i :: 0 <= i < |parts| ==> sep !in parts[i]
    ensures Split(Join(parts, sep), sep) == parts
    decreases |parts|
  {
    if |parts| == 1 {
      SplitWithoutSeparator(parts[0], sep);
    } else {
      SplitJoin(parts[1..], sep);
      SplitAtFirst(parts[0], Join(parts[1..], sep), sep);
      assert [parts[0]] + parts[1..] == parts;
    }
  }
}

=== FILE: languages.dfy ===
/** The language asset resolver: `get` (one translation namespace), `listCodes`
    (the installed language codes, memoised in `codeCache`), `list` (the
    language descriptors, memoised in `listCache`) and `userTimeagoCode`.

    The two source files differ only in how a `catch` block classifies what was
    thrown, so every operation takes the `Variant` to follow. The filesystem,
    `JSON.parse`, `path.join`, the plugin hook and the locale mapping are fields
    of `Env`; the two module-level caches are threaded through as `Caches`, and
    every operation reports the paths it hands to `readFile`, in order. */
module Languages {
  import opened Wrappers
  import opened JsValues
  import opened Seqs
  import opened Paths
  import Timeago

  /** Which source file's behaviour to follow: the TypeScript source or the
      compiled JavaScript variant. */
  datatype Variant = Ts | Js

  /** The code the TypeScript `catch` blocks compare against (with a digit zero). */
  const TsNotFoundCode: string := "EN0ENT"

  /** The errno code of a missing file, which the JavaScript `catch` blocks compare against. */
  const NotFoundCode: string := "ENOENT"

  /** How `readFile` rejects for a path that does not exist. */
  const FileNotFound: Thrown := ErrorInstance("ENOENT: no such file or directory", Some(NotFoundCode))

  /** How `path.join` rejects an argument that is not a string. */
  const ArgTypeError: Thrown := ErrorInstance("TypeError", Some("ERR_INVALID_ARG_TYPE"))

  /** Everything outside the module: the languages directory, `path.join`, the
      files on disk, `JSON.parse`, the `filter:languages.get` hook,
      `utils.userLangToTimeagoCode`, and the file names of the relative-time
      library's locale directory. A path absent from `files` does not exist. */
  datatype Env = Env(
    languagesPath: string,
    join: seq<string> -> string,
    files: map<string, Result<string, Thrown>>,
    parse: string -> Result<Value, Thrown>,
    fire: Value -> Result<Value, Thrown>,
    userLangToTimeagoCode: string -> string,
    localeFiles: seq<string>)

  /** The two module-level memo caches. */
  datatype Caches = Caches(codeCache: Value, listCache: Value)

  /** Both caches as the module initialises them (`null`). */
  const Cold: Caches := Caches(Null, Null)

  /** The outcome of a cache-free operation and the paths it read. */
  datatype Traced<T> = Traced(result: Result<T, Thrown>, readLog: seq<string>)

  /** The outcome of a cache-using operation, the caches afterwards, and the paths it read. */
  datatype Run<T> = Run(result: Result<T, Thrown>, caches: Caches, readLog: seq<string>)

  /** `fs.promises.readFile(path, 'utf8')`. */
  function ReadFile(env: Env, path: string): (r: Result<string, Thrown>)
    ensures path !in env.files ==> r == Failure(FileNotFound)
    ensures path in env.files ==> r == env.files[path]
  {
    if path in env.files then env.files[path] else Failure(FileNotFound)
  }

  /** A cache is used only when it is truthy and has a truthy `length`. */
  predicate Populated(cache: Value)
    ensures Nullish(cache) ==> !Populated(cache)
    ensures cache.Arr? ==> (Populated(cache) <==> |cache.elems| > 0)
    ensures cache.Str? ==> (Populated(cache) <==> cache.s != "")
  {
    Truthy(cache) && Truthy(Member(cache, "length"))
  }

  /** What a `catch` block in `listCodes` or in `list`'s per-code loader does with
      the thrown `err`: `Success(v)` when the handler produces `v`, `Failure(e)`
      when `e` propagates. `notFound` is what the handler returns for a
      recognised not-found error.
      - TypeScript: reads `err.code` and swallows exactly the code `'EN0ENT'`.
      - JavaScript: for an `Error`, swallows exactly the code `'ENOENT'` and
        rethrows the rest; for anything else the handler falls through and the
        function resolves to `undefined`. */
  function Handle(variant: Variant, err: Thrown, notFound: Value): (r: Result<Value, Thrown>)
    ensures variant == Ts ==> (r.Success? <==> CodeProperty(err) == Success(Str(TsNotFoundCode)))
    ensures variant == Ts && r.Success? ==> r.value == notFound
    ensures variant == Ts && r.Failure? ==> r.error == (if err.OtherValue? && Nullish(err.value) then TypeError else err)
    ensures variant == Js ==> (r.Success? <==> !err.ErrorInstance? || err.code == Some(NotFoundCode))
    ensures variant == Js && r.Success? ==> r.value == (if err.ErrorInstance? then notFound else Undefined)
    ensures variant == Js && r.Failure? ==> r.error == err
  {
    match variant
    case Ts =>
      (match CodeProperty(err)
       case Failure(e) => Failure(e)
       case Success(code) => if code == Str(TsNotFoundCode) then Success(notFound) else Failure(err))
    case Js =>
      (match err
       case ErrorInstance(_, code) => if code == Some(NotFoundCode) then Success(notFound) else Failure(err)
       case OtherValue(_) => Success(Undefined))
  }

  // ---------------------------------------------------------------------------
  // get

  /** `path.join(languagesPath, language, `${namespace}.json`)`. */
  function TranslationPath(env: Env, language: string, namespace: string): string {
    env.join([env.languagesPath, language, namespace + ".json"])
  }

  /** The object handed to the `filter:languages.get` hook. */
  function Payload(language: string, namespace: string, data: Value): Value {
    Obj(map["language" := Str(language), "namespace" := Str(namespace), "data" := data])
  }

  /** `parsed || {}`. */
  function OrEmpty(parsed: Value): (r: Value)
    ensures Truthy(r)
    ensures Truthy(parsed) ==> r == parsed
    ensures !Truthy(parsed) ==> r == Obj(map[])
  {
    if Truthy(parsed) then parsed else Obj(map[])
  }

  /** Read, parse, run the hook, and keep the `data` field of its result. */
  function LoadTranslation(env: Env, language: string, namespace: string, path: string): (r: Result<Value, Thrown>)
    ensures ReadFile(env, path).Failure? ==> r == Failure(ReadFile(env, path).error)
    ensures ReadFile(env, path).Success? && env.parse(ReadFile(env, path).value).Failure? ==>
      r == Failure(env.parse(ReadFile(env, path).value).error)
    ensures ReadFile(env, path).Success? && env.parse(ReadFile(env, path).value).Success? ==>
      var hooked := env.fire(Payload(language, namespace, OrEmpty(env.parse(ReadFile(env, path).value).value)));
      hooked.Failure? ==> r == Failure(hooked.error)
    ensures r.Success? ==>
      && ReadFile(env, path).Success?
      && env.parse(ReadFile(env, path).value).Success?
      && var data := OrEmpty(env.parse(ReadFile(env, path).value).value);
         var hooked := env.fire(Payload(language, namespace, data));
         hooked.Success? && !Nullish(hooked.value) && r.value == Member(hooked.value, "data")
  {
    var text :- ReadFile(env, path);
    var parsed :- env.parse(text);
    var result :- env.fire(Payload(language, namespace, OrEmpty(parsed)));
    GetProp(result, "data")
  }

  /** `get(language, namespace)`: rejects a joined path that does not start
      with the languages directory without reading anything, and otherwise
      reads exactly that path. */
  function Get(env: Env, language: string, namespace: string): (t: Traced<Value>)
    ensures var path := TranslationPath(env, language, namespace);
      && (!StartsWith(path, env.languagesPath) <==> t.result == Failure(InvalidPath) && t.readLog == [])
      && (StartsWith(path, env.languagesPath) ==> t.readLog == [path])
      && (StartsWith(path, env.languagesPath) ==> t.result == LoadTranslation(env, language, namespace, path))
    ensures forall p :: p in t.readLog ==> StartsWith(p, env.languagesPath)
  {
    var path := TranslationPath(env, language, namespace);
    match CheckSandbox(env.languagesPath, path)
    case Failure(e) => Traced(Failure(e), [])
    case Success(p) => Traced(LoadTranslation(env, language, namespace, p), [p])
  }

  /** The hook sees `{}` in place of a falsy parse, and `get` returns the `data`
      field of whatever the hook returns, so data a listener adds reaches the
      caller. */
  lemma GetReturnsHookData(env: Env, language: string, namespace: string, text: string, parsed: Value, hooked: Value)
    requires StartsWith(TranslationPath(env, language, namespace), env.languagesPath)
    requires ReadFile(env, TranslationPath(env, language, namespace)) == Success(text)
    requires env.parse(text) == Success(parsed)
    requires env.fire(Payload(language, namespace, if Truthy(parsed) then parsed else Obj(map[]))) == Success(hooked)
    ensures !Nullish(hooked) ==> Get(env, language, namespace).result == Success(Member(hooked, "data"))
    ensures Nullish(hooked) ==> Get(env, language, namespace).result == Failure(TypeError)
  {
  }

  /** With no listener registered the hook hands its argument back. */
  ghost predicate NoListeners(env: Env) {
    forall v :: env.fire(v) == Success(v)
  }

  /** Without listeners `get` returns the parsed file, with `{}` standing in for
      a falsy parse. */
  lemma GetWithoutListeners(env: Env, language: string, namespace: string, text: string, parsed: Value)
    requires NoListeners(env)
    requires StartsWith(TranslationPath(env, language, namespace), env.languagesPath)
    requires ReadFile(env, TranslationPath(env, language, namespace)) == Success(text)
    requires env.parse(text) == Success(parsed)
    ensures Truthy(parsed) ==> Get(env, language, namespace).result == Success(parsed)
    ensures !Truthy(parsed) ==> Get(env, language, namespace).result == Success(Obj(map[]))
  {
  }

  // ---------------------------------------------------------------------------
  // listCodes

  /** `path.join(languagesPath, 'metadata.json')`. */
  function MetadataPath(env: Env): string {
    env.join([env.languagesPath, "metadata.json"])
  }

  /** Read and parse the metadata file and take its `languages` field. */
  function LoadLanguages(env: Env): (r: Result<Value, Thrown>)
    ensures MetadataPath(env) !in env.files ==> r == Failure(FileNotFound)
    ensures ReadFile(env, MetadataPath(env)).Failure? ==> r == Failure(ReadFile(env, MetadataPath(env)).error)
    ensures ReadFile(env, MetadataPath(env)).Success? ==>
      var parsed := env.parse(ReadFile(env, MetadataPath(env)).value);
      && (parsed.Failure? ==> r == Failure(parsed.error))
      && (parsed.Success? && Nullish(parsed.value) ==> r == Failure(TypeError))
      && (parsed.Success? && !Nullish(parsed.value) ==> r == Success(Member(parsed.value, "languages")))
  {
    var text :- ReadFile(env, MetadataPath(env));
    var parsed :- env.parse(text);
    GetProp(parsed, "languages")
  }

  /** `listCodes()`: a populated `codeCache` is returned with no read; otherwise
      the metadata file is read once, a successful load is stored in
      `codeCache` and returned, and a failure goes through the variant's
      `catch` with `[]` as the not-found result, leaving the caches alone. */
  function ListCodes(env: Env, variant: Variant, caches: Caches): (run: Run<Value>)
    ensures run.caches.listCache == caches.listCache
    ensures Populated(caches.codeCache) ==> run == Run(Success(caches.codeCache), caches, [])
    ensures !Populated(caches.codeCache) ==> run.readLog == [MetadataPath(env)]
    ensures !Populated(caches.codeCache) && LoadLanguages(env).Success? ==>
      run.result == LoadLanguages(env) && run.caches.codeCache == LoadLanguages(env).value
    ensures !Populated(caches.codeCache) && LoadLanguages(env).Failure? ==>
      run.caches == caches && run.result == Handle(variant, LoadLanguages(env).error, Arr([]))
    ensures run.caches.codeCache != caches.codeCache ==> run.result == Success(run.caches.codeCache)
  {
    if Populated(caches.codeCache) then
      Run(Success(caches.codeCache), caches, [])
    else
      match LoadLanguages(env)
      case Success(languages) => Run(Success(languages), caches.(codeCache := languages), [MetadataPath(env)])
      case Failure(err) => Run(Handle(variant, err, Arr([])), caches, [MetadataPath(env)])
  }

  /** Two calls in a row read the metadata at most once when the first call
      loads a non-empty list, and give the same answer. */
  lemma ListCodesTwiceReadsOnce(env: Env, variant: Variant, caches: Caches)
    requires ListCodes(env, variant, caches).result.Success?
    requires Populated(ListCodes(env, variant, caches).result.value)
    ensures var first := ListCodes(env, variant, caches);
      ListCodes(env, variant, first.caches) == Run(first.result, first.caches, [])
  {
  }

  /** Calling `listCodes` again after a success changes neither the answer nor
      the caches, whether or not the second call hits the cache. */
  lemma ListCodesIdempotent(env: Env, variant: Variant, caches: Caches)
    requires ListCodes(env, variant, caches).result.Success?
    ensures var first := ListCodes(env, variant, caches);
      var second := ListCodes(env, variant, first.caches);
      second.result == first.result && second.caches == first.caches
  {
  }

  /** An empty code list is stored but never counts as cached: the next call
      reads the metadata file again. */
  lemma EmptyCodeListIsReloaded(env: Env, variant: Variant, caches: Caches)
    requires !Populated(caches.codeCache)
    requires LoadLanguages(env) == Success(Arr([]))
    ensures var first := ListCodes(env, variant, caches);
      first.result == Success(Arr([]))
      && ListCodes(env, variant, first.caches).readLog == [MetadataPath(env)]
  {
  }

  // ---------------------------------------------------------------------------
  // list

  /** `path.join(languagesPath, folder, 'language.json')`. */
  function DescriptorPath(env: Env, folder: string): string {
    env.join([env.languagesPath, folder, "language.json"])
  }

  /** The per-code loader inside `list`: read and parse `folder`'s descriptor,
      handing any failure to the variant's `catch`, which yields `undefined`
      for a recognised not-found. A folder that is not a string makes
      `path.join` throw before anything is read. */
  function LoadDescriptor(env: Env, variant: Variant, folder: Value): (t: Traced<Value>)
    ensures folder.Str? ==> t.readLog == [DescriptorPath(env, folder.s)]
    ensures folder.Str? ==> var read := ReadFile(env, DescriptorPath(env, folder.s));
      && (read.Failure? ==> t.result == Handle(variant, read.error, Undefined))
      && (read.Success? && env.parse(read.value).Success? ==> t.result == env.parse(read.value))
      && (read.Success? && env.parse(read.value).Failure? ==>
            t.result == Handle(variant, env.parse(read.value).error, Undefined))
    ensures !folder.Str? ==> t.readLog == [] && t.result == Handle(variant, ArgTypeError, Undefined)
  {
    match folder
    case Str(name) =>
      var path := DescriptorPath(env, name);
      var loaded := (var text :- ReadFile(env, path); env.parse(text));
      Traced(if loaded.Success? then loaded else Handle(variant, loaded.error, Undefined), [path])
    case _ => Traced(Handle(variant, ArgTypeError, Undefined), [])
  }

  /** Every per-code load yielded a value, and `loaded` holds them in code order. */
  ghost predicate AllLoaded(env: Env, variant: Variant, folders: seq<Value>, loaded: seq<Value>) {
    && |loaded| == |folders|
    && forall i :: 0 <= i < |folders| ==> LoadDescriptor(env, variant, folders[i]).result == Success(loaded[i])
  }

  /** `Promise.all` over the per-code loaders, sequentialised: every load is
      started, so every string folder's descriptor is read; the result is the
      values in code order when every load succeeds, and otherwise the error of
      the first failing load in code order. */
  function Gather(env: Env, variant: Variant, folders: seq<Value>): (t: Traced<seq<Value>>)
    ensures t.result.Success? <==> forall i :: 0 <= i < |folders| ==> LoadDescriptor(env, variant, folders[i]).result.Success?
    ensures t.result.Success? ==> AllLoaded(env, variant, folders, t.result.value)
    ensures t.result.Failure? ==> exists i :: 0 <= i < |folders| && FirstFailure(env, variant, folders, i, t.result.error)
    ensures forall i :: 0 <= i < |folders| && folders[i].Str? ==> DescriptorPath(env, folders[i].s) in t.readLog
    ensures |t.readLog| <= |folders|
    decreases |folders|
  {
    if |folders| == 0 then Traced(Success([]), [])
    else
      var first := LoadDescriptor(env, variant, folders[0]);
      var rest := Gather(env, variant, folders[1..]);
      var result :=
        match first.result
        case Failure(e) => Failure(e)
        case Success(v) =>
          (match rest.result
           case Failure(e) => Failure(e)
           case Success(vs) => Success([v] + vs));
      assert result.Failure? ==> exists i :: 0 <= i < |folders| && FirstFailure(env, variant, folders, i, result.error) by {
        if result.Failure? && first.result.Failure? {
          assert FirstFailure(env, variant, folders, 0, result.error);
        } else if result.Failure? {
          var j :| 0 <= j < |folders[1..]| && FirstFailure(env, variant, folders[1..], j, result.error);
          assert FirstFailure(env, variant, folders, j + 1, result.error);
        }
      }
      Traced(result, first.readLog + rest.readLog)
  }

  /** Load `i` is the first in code order to fail, and it fails with `err`. */
  ghost predicate FirstFailure(env: Env, variant: Variant, folders: seq<Value>, i: int, err: Thrown)
    requires 0 <= i < |folders|
  {
    && LoadDescriptor(env, variant, folders[i]).result == Failure(err)
    && forall j :: 0 <= j < i ==> LoadDescriptor(env, variant, folders[j]).result.Success?
  }

  /** `lang && lang.code && lang.name && lang.dir`. */
  predicate IsDescriptor(lang: Value)
    ensures IsDescriptor(lang) <==>
      && lang.Obj?
      && "code" in lang.props && Truthy(lang.props["code"])
      && "name" in lang.props && Truthy(lang.props["name"])
      && "dir" in lang.props && Truthy(lang.props["dir"])
  {
    Truthy(lang) && Truthy(Member(lang, "code")) && Truthy(Member(lang, "name")) && Truthy(Member(lang, "dir"))
  }

  /** `list()`: a populated `listCache` is returned with no read; otherwise the
      codes come from `listCodes`, every descriptor is loaded, the complete
      descriptors are kept in code order, stored in `listCache` and returned.
      A failure leaves `listCache` as it was. */
  function List(env: Env, variant: Variant, caches: Caches): (run: Run<Value>)
    ensures Populated(caches.listCache) ==> run == Run(Success(caches.listCache), caches, [])
    ensures !Populated(caches.listCache) && run.result.Success? ==>
      && run.result.value.Arr?
      && run.caches.listCache == run.result.value
      && forall i :: 0 <= i < |run.result.value.elems| ==> IsDescriptor(run.result.value.elems[i])
    ensures run.result.Failure? ==> run.caches.listCache == caches.listCache
    ensures !Populated(caches.listCache) && ListCodes(env, variant, caches).result.Failure? ==>
      run.result == ListCodes(env, variant, caches).result
    ensures var codes := ListCodes(env, variant, caches);
      !Populated(caches.listCache) && codes.result.Success? && !codes.result.value.Arr? ==>
      run.result == Failure(TypeError)
    ensures !Populated(caches.listCache) ==>
      run.caches.codeCache == ListCodes(env, variant, caches).caches.codeCache
      && ListCodes(env, variant, caches).readLog <= run.readLog
  {
    if Populated(caches.listCache) then
      Run(Success(caches.listCache), caches, [])
    else
      var codes := ListCodes(env, variant, caches);
      match codes.result
      case Failure(e) => Run(Failure(e), codes.caches, codes.readLog)
      case Success(Arr(folders)) =>
        var gathered := Gather(env, variant, folders);
        (match gathered.result
         case Failure(e) => Run(Failure(e), codes.caches, codes.readLog + gathered.readLog)
         case Success(langs) =>
           var kept := Arr(Filter(IsDescriptor, langs));
           Run(Success(kept), codes.caches.(listCache := kept), codes.readLog + gathered.readLog))
      case Success(_) =>
        // `codes.map` is not a function
        Run(Failure(TypeError), codes.caches, codes.readLog)
  }

  /** When every code's descriptor loads, `list` returns exactly the complete
      descriptors among them, in code order, and caches that list. */
  lemma ListKeepsCompleteDescriptors(env: Env, variant: Variant, caches: Caches, folders: seq<Value>, loaded: seq<Value>)
    requires !Populated(caches.listCache)
    requires ListCodes(env, variant, caches).result == Success(Arr(folders))
    requires AllLoaded(env, variant, folders, loaded)
    ensures var run := List(env, variant, caches);
      && run.result == Success(Arr(Filter(IsDescriptor, loaded)))
      && run.caches == ListCodes(env, variant, caches).caches.(listCache := Arr(Filter(IsDescriptor, loaded)))
    ensures forall v :: v in List(env, variant, caches).result.value.elems <==> v in loaded && IsDescriptor(v)
  {
    var gathered := Gather(env, variant, folders);
    assert gathered.result.Success?;
    assert gathered.result.value == loaded;
    forall v
      ensures v in Filter(IsDescriptor, loaded) <==> v in loaded && IsDescriptor(v)
    {
      FilterMember(IsDescriptor, loaded, v);
    }
  }

  /** A code whose descriptor load fails hard makes `list` fail, with the
      error of the first such code, and leaves `listCache` empty-handed. */
  lemma ListFailsOnHardError(env: Env, variant: Variant, caches: Caches, folders: seq<Value>, i: int)
    requires !Populated(caches.listCache)
    requires ListCodes(env, variant, caches).result == Success(Arr(folders))
    requires 0 <= i < |folders| && LoadDescriptor(env, variant, folders[i]).result.Failure?
    ensures List(env, variant, caches).result.Failure?
    ensures exists k :: 0 <= k < |folders| && FirstFailure(env, variant, folders, k, List(env, variant, caches).result.error)
    ensures List(env, variant, caches).caches.listCache == caches.listCache
  {
  }

  /** A successful non-empty `list` is served from the cache on the next call. */
  lemma ListTwiceReadsOnce(env: Env, variant: Variant, caches: Caches)
    requires List(env, variant, caches).result.Success?
    requires Populated(List(env, variant, caches).result.value)
    ensures var first := List(env, variant, caches);
      List(env, variant, first.caches) == Run(first.result, first.caches, [])
  {
  }

  // ---------------------------------------------------------------------------
  // userTimeagoCode

  /** `userTimeagoCode(userLang)`: the mapped relative-time code when the
      language is installed and the library supports the mapped code, `''`
      otherwise. The code list comes from `listCodes`, with its cache effects. */
  function UserTimeagoCode(env: Env, variant: Variant, caches: Caches, userLang: string): (run: Run<string>)
    ensures var codes := ListCodes(env, variant, caches);
      run.caches == codes.caches && run.readLog == codes.readLog
    ensures run.result.Success? ==> run.result.value in {"", env.userLangToTimeagoCode(userLang)}
    ensures var codes := ListCodes(env, variant, caches);
      var mapped := env.userLangToTimeagoCode(userLang);
      codes.result.Success? && codes.result.value.Arr? ==>
        run.result == Success(
          if Str(userLang) in codes.result.value.elems && Str(mapped) in Timeago.TimeagoCodes(env.localeFiles)
          then mapped else "")
    ensures var codes := ListCodes(env, variant, caches);
      var mapped := env.userLangToTimeagoCode(userLang);
      codes.result.Success? && codes.result.value.Str? ==>
        run.result == Success(
          if Contains(codes.result.value.s, userLang) && Str(mapped) in Timeago.TimeagoCodes(env.localeFiles)
          then mapped else "")
    ensures var codes := ListCodes(env, variant, caches);
      codes.result.Success? && !codes.result.value.Arr? && !codes.result.value.Str? ==> run.result == Failure(TypeError)
    ensures ListCodes(env, variant, caches).result.Failure? ==> run.result == Failure(ListCodes(env, variant, caches).result.error)
  {
    var codes := ListCodes(env, variant, caches);
    match codes.result
    case Failure(e) => Run(Failure(e), codes.caches, codes.readLog)
    case Success(languageCodes) =>
      var mapped := env.userLangToTimeagoCode(userLang);
      match Includes(languageCodes, userLang)
      case Failure(e) => Run(Failure(e), codes.caches, codes.readLog)
      case Success(installed) =>
        var supported := Str(mapped) in Timeago.TimeagoCodes(env.localeFiles);
        Run(Success(if installed && supported then mapped else ""), codes.caches, codes.readLog)
  }

  /** A language missing from the installed codes maps to `''` even when the
      library supports its mapped code. */
  lemma UninstalledLanguageMapsToEmpty(env: Env, variant: Variant, caches: Caches, userLang: string)
    requires ListCodes(env, variant, caches).result.Success?
    requires ListCodes(env, variant, caches).result.value.Arr?
    requires Str(userLang) !in ListCodes(env, variant, caches).result.value.elems
    ensures UserTimeagoCode(env, variant, caches, userLang).result == Success("")
  {
  }

  /** An installed language whose mapped code `c` has a locale file
      `jquery.timeago.<c>.js` maps to `c`. */
  lemma InstalledSupportedLanguageMaps(env: Env, variant: Variant, caches: Caches, userLang: string)
    requires ListCodes(env, variant, caches).result.Success?
    requires ListCodes(env, variant, caches).result.value.Arr?
    requires Str(userLang) in ListCodes(env, variant, caches).result.value.elems
    requires '.' !in env.userLangToTimeagoCode(userLang)
    requires Timeago.LocalePrefix + "." + env.userLangToTimeagoCode(userLang) + ".js" in env.localeFiles
    ensures UserTimeagoCode(env, variant, caches, userLang).result == Success(env.userLangToTimeagoCode(userLang))
  {
    var mapped := env.userLangToTimeagoCode(userLang);
    var f := Timeago.LocalePrefix + "." + mapped + ".js";
    Timeago.LocaleFileCode(mapped);
    Timeago.TimeagoCodesMember(env.localeFiles, Str(mapped));
    assert f in env.localeFiles && Timeago.IsLocaleFile(f) && Timeago.ThirdField(f) == Str(mapped);
  }
}

=== FILE: languages_js.dfy ===
/** Consequences of the compiled JavaScript variant's `catch` blocks, which
    recognise an `Error` whose `code` is `'ENOENT'` and let any thrown value
    that is not an `Error` fall out of the handler, so that the function
    resolves to `undefined`. */
module LanguagesJs {
  import opened Wrappers
  import opened JsValues
  import opened Seqs
  import opened Languages

  /** `listCodes` recovers with `[]` exactly for an `Error` with code
      `'ENOENT'`, resolves to `undefined` for a thrown non-`Error`, and
      rethrows every other `Error`; the caches stay as they were. */
  lemma ListCodesCatch(env: Env, caches: Caches, err: Thrown)
    requires !Populated(caches.codeCache)
    requires LoadLanguages(env) == Failure(err)
    ensures var run := ListCodes(env, Js, caches);
      && run.caches == caches
      && (err.ErrorInstance? && err.code == Some("ENOENT") ==> run.result == Success(Arr([])))
      && (err.ErrorInstance? && err.code != Some("ENOENT") ==> run.result == Failure(err))
      && (err.OtherValue? ==> run.result == Success(Undefined))
  {
  }

  /** A missing `metadata.json` means no language is installed: `[]`, one read,
      and no cache write. */
  lemma ListCodesMissingMetadataIsEmpty(env: Env, caches: Caches)
    requires !Populated(caches.codeCache)
    requires MetadataPath(env) !in env.files
    ensures ListCodes(env, Js, caches) == Run(Success(Arr([])), caches, [MetadataPath(env)])
  {
  }

  /** When `listCodes` swallows a thrown non-`Error` and resolves to
      `undefined`, its callers then fail: `list` on `codes.map` and
      `userTimeagoCode` on `languageCodes.includes`. */
  lemma NonErrorThrowBreaksCallers(env: Env, caches: Caches, thrown: Value, userLang: string)
    requires !Populated(caches.codeCache) && !Populated(caches.listCache)
    requires LoadLanguages(env) == Failure(OtherValue(thrown))
    ensures ListCodes(env, Js, caches).result == Success(Undefined)
    ensures List(env, Js, caches) == Run(Failure(TypeError), caches, [MetadataPath(env)])
    ensures UserTimeagoCode(env, Js, caches, userLang) == Run(Failure(TypeError), caches, [MetadataPath(env)])
  {
  }

  /** A code whose `language.json` is missing yields `undefined`, and `list`
      leaves it out while keeping the complete descriptors of the other codes. */
  lemma MissingDescriptorIsDropped(env: Env, caches: Caches, folders: seq<Value>, loaded: seq<Value>, i: int)
    requires !Populated(caches.listCache)
    requires ListCodes(env, Js, caches).result == Success(Arr(folders))
    requires AllLoaded(env, Js, folders, loaded)
    requires 0 <= i < |folders| && folders[i].Str?
    requires DescriptorPath(env, folders[i].s) !in env.files
    ensures loaded[i] == Undefined
    ensures List(env, Js, caches).result == Success(Arr(Filter(IsDescriptor, loaded)))
    ensures Undefined !in List(env, Js, caches).result.value.elems
  {
    assert LoadDescriptor(env, Js, folders[i]).result == Success(Undefined);
    ListKeepsCompleteDescriptors(env, Js, caches, folders, loaded);
  }

  /** Any other `Error` from a descriptor load makes `list` fail. */
  lemma OtherDescriptorErrorAbortsList(env: Env, caches: Caches, folders: seq<Value>, i: int, message: string, code: Option<string>)
    requires !Populated(caches.listCache)
    requires ListCodes(env, Js, caches).result == Success(Arr(folders))
    requires 0 <= i < |folders| && folders[i].Str?
    requires DescriptorPath(env, folders[i].s) in env.files
    requires env.files[DescriptorPath(env, folders[i].s)] == Failure(ErrorInstance(message, code))
    requires code != Some("ENOENT")
    ensures List(env, Js, caches).result.Failure?
    ensures List(env, Js, caches).caches.listCache == caches.listCache
  {
  }
}

=== FILE: languages_ts.dfy ===
/** Consequences of the TypeScript source's `catch` blocks, which compare the
    thrown value's `code` with the literal `'EN0ENT'` (a digit zero). A missing
    file carries the code `'ENOENT'` and therefore propagates. */
module LanguagesTs {
  import opened Wrappers
  import opened JsValues
  import opened Languages

  /** `listCodes` recovers with `[]` exactly when the thrown value's `code` is
      `'EN0ENT'`; any other failure propagates and the caches stay as they were. */
  lemma ListCodesCatch(env: Env, caches: Caches, err: Thrown)
    requires !Populated(caches.codeCache)
    requires LoadLanguages(env) == Failure(err)
    ensures var run := ListCodes(env, Ts, caches);
      && run.caches == caches
      && (run.result == Success(Arr([])) <==> CodeProperty(err) == Success(Str("EN0ENT")))
      && (err.ErrorInstance? && err.code != Some("EN0ENT") ==> run.result == Failure(err))
  {
  }

  /** A genuinely missing `metadata.json` is not recognised: `listCodes`
      rethrows the `'ENOENT'` error instead of returning `[]`. */
  lemma ListCodesRethrowsMissingMetadata(env: Env, caches: Caches)
    requires !Populated(caches.codeCache)
    requires MetadataPath(env) !in env.files
    ensures ListCodes(env, Ts, caches) == Run(Failure(FileNotFound), caches, [MetadataPath(env)])
  {
  }

  /** A code whose `language.json` is missing makes `list` fail instead of
      being skipped, and `listCache` is not written. */
  lemma MissingDescriptorAbortsList(env: Env, caches: Caches, folders: seq<Value>, i: int)
    requires !Populated(caches.listCache)
    requires ListCodes(env, Ts, caches).result == Success(Arr(folders))
    requires 0 <= i < |folders| && folders[i].Str?
    requires DescriptorPath(env, folders[i].s) !in env.files
    ensures List(env, Ts, caches).result.Failure?
    ensures List(env, Ts, caches).caches.listCache == caches.listCache
  {
  }

  /** A descriptor load that throws the literal `'EN0ENT'` code yields
      `undefined`, which the completeness filter then drops. */
  lemma MisspelledCodeDescriptorIsDropped(env: Env, folder: string, message: string)
    requires DescriptorPath(env, folder) in env.files
    requires env.files[DescriptorPath(env, folder)] == Failure(ErrorInstance(message, Some("EN0ENT")))
    ensures LoadDescriptor(env, Ts, Str(folder)).result == Success(Undefined)
    ensures !IsDescriptor(LoadDescriptor(env, Ts, Str(folder)).result.value)
  {
  }
}

=== FILE: paths.dfy ===
/** The sandbox check that guards translation reads: a joined path is accepted
    when it starts with the languages directory as a plain string prefix. */
module Paths {
  import opened Wrappers
  import opened JsValues

  /** The error `get` throws for a path outside the languages directory. */
  const InvalidPath: Thrown := ErrorInstance("[[error:invalid-path]]", None)

  /** Directory containment as a reader would expect it: the path is the base
      directory itself or lies below it. */
  predicate InsideDirectory(path: string, base: string) {
    path == base || base + "/" <= path
  }

  /** The guard in `get`: the joined path is passed on unchanged when it starts
      with `base`, and `InvalidPath` is thrown otherwise. */
  function CheckSandbox(base: string, path: string): (r: Result<string, Thrown>)
    ensures r.Success? <==> StartsWith(path, base)
    ensures r.Success? ==> r.value == path && |path| >= |base| && path[..|base|] == base
    ensures r.Failure? ==> r.error == InvalidPath
  {
    if StartsWith(path, base) then Success(path) else Failure(InvalidPath)
  }

  /** Every path inside the directory passes the guard. */
  lemma InsidePassesCheck(path: string, base: string)
    requires InsideDirectory(path, base)
    ensures CheckSandbox(base, path).Success?
  {
  }

  /** The guard is a string-prefix test, not containment: the sibling directory
      whose name extends the base name (`base + "2"`, which `path.join`
      produces from the language `../language2` when the base ends in
      `language`) passes although it is not inside the base directory. */
  lemma {:induction false} SiblingPrefixPassesCheck(base: string, rest: string)
    ensures var path := base + "2" + rest;
      CheckSandbox(base, path) == Success(path) && !InsideDirectory(path, base)
  {
    var path := base + "2" + rest;
    assert path[..|base|] == base;
    assert path[|base|] == '2';
  }
}

=== FILE: seqs.dfy ===
/** `Array.prototype.filter` and `Array.prototype.map` on sequences, with the
    facts the loader's list operations rely on: filtering keeps exactly the
    accepted elements and keeps them in their original order. */
module Seqs {

  /** The elements of `s` that `keep` accepts, in their order in `s`. */
  function Filter<T>(keep: T -> bool, s: seq<T>): (r: seq<T>)
    ensures |r| <= |s|
    ensures forall i :: 0 <= i < |r| ==> r[i] in s && keep(r[i])
    decreases |s|
  {
    if |s| == 0 then []
    else if keep(s[0]) then [s[0]] + Filter(keep, s[1..])
    else Filter(keep, s[1..])
  }

  /** `f` applied to every element of `s`, position by position. */
  function Map<T, U>(f: T -> U, s: seq<T>): (r: seq<U>)
    ensures |r| == |s|
    ensures forall i :: 0 <= i < |s| ==> r[i] == f(s[i])
  {
    seq(|s|, i requires 0 <= i < |s| => f(s[i]))
  }

  /** Filtering distributes over concatenation, so the relative order of kept
      elements is the order of the input. */
  lemma {:induction false} FilterAppend<T>(keep: T -> bool, a: seq<T>, b: seq<T>)
    ensures Filter(keep, a + b) == Filter(keep, a) + Filter(keep, b)
    decreases |a|
  {
    if |a| > 0 {
      FilterAppend(keep, a[1..], b);
      assert (a + b)[1..] == a[1..] + b;
    } else {
      assert a + b == b;
    }
  }

  /** An element survives filtering exactly when it occurs in the input and is accepted. */
  lemma {:induction false} FilterMember<T>(keep: T -> bool, s: seq<T>, x: T)
    ensures x in Filter(keep, s) <==> x in s && keep(x)
    decreases |s|
  {
    if |s| > 0 {
      FilterMember(keep, s[1..], x);
      assert s == [s[0]] + s[1..];
    }
  }

  /** Mapping distributes over concatenation. */
  lemma MapAppend<T, U>(f: T -> U, a: seq<T>, b: seq<T>)
    ensures Map(f, a + b) == Map(f, a) + Map(f, b)
  {
  }
}

=== FILE: timeago.dfy ===
/** The list of locale codes supported by the relative-time library, derived once
    from the file names in its `locales` directory: every file named
    `jquery.timeago.<code>.js` contributes its third `.`-separated field. */
module Timeago {
  import opened JsValues
  import opened Seqs

  const LocalePrefix: string := "jquery.timeago"

  /** `f.startsWith('jquery.timeago')`. */
  predicate IsLocaleFile(f: string) {
    StartsWith(f, LocalePrefix)
  }

  /** `f.split('.')[2]`, which is `undefined` when the name has fewer than three fields. */
  function ThirdField(f: string): (r: Value)
    ensures r.Str? ==> '.' !in r.s
    ensures r == Undefined <==> |Split(f, '.')| < 3
    ensures |Split(f, '.')| >= 3 ==> r == Str(Split(f, '.')[2])
  {
    var parts := Split(f, '.');
    if |parts| > 2 then Str(parts[2]) else Undefined
  }

  /** `files.filter(f => f.startsWith('jquery.timeago')).map(f => f.split('.')[2])`. */
  function TimeagoCodes(files: seq<string>): (codes: seq<Value>)
    ensures |codes| <= |files|
    ensures forall i :: 0 <= i < |codes| ==>
      exists f :: f in files && IsLocaleFile(f) && codes[i] == ThirdField(f)
  {
    var kept := Filter(IsLocaleFile, files);
    var codes := Map(ThirdField, kept);
    assert forall i :: 0 <= i < |codes| ==>
      kept[i] in files && IsLocaleFile(kept[i]) && codes[i] == ThirdField(kept[i]);
    codes
  }

  /** The codes follow the directory order: the codes of a listing are the codes
      of its first part followed by the codes of the rest. */
  lemma TimeagoCodesAppend(a: seq<string>, b: seq<string>)
    ensures TimeagoCodes(a + b) == TimeagoCodes(a) + TimeagoCodes(b)
  {
    FilterAppend(IsLocaleFile, a, b);
    MapAppend(ThirdField, Filter(IsLocaleFile, a), Filter(IsLocaleFile, b));
  }

  /** A file whose name does not start with `jquery.timeago` contributes nothing;
      one that does contributes exactly its third field. */
  lemma TimeagoCodesOfOneFile(f: string)
    ensures IsLocaleFile(f) ==> TimeagoCodes([f]) == [ThirdField(f)]
    ensures !IsLocaleFile(f) ==> TimeagoCodes([f]) == []
  {
  }

  /** A code is listed exactly when some locale file of the directory has it as its third field. */
  lemma TimeagoCodesMember(files: seq<string>, code: Value)
    ensures code in TimeagoCodes(files) <==>
      exists f :: f in files && IsLocaleFile(f) && ThirdField(f) == code
  {
    var kept := Filter(IsLocaleFile, files);
    if code in TimeagoCodes(files) {
      var i :| 0 <= i < |kept| && TimeagoCodes(files)[i] == code;
      assert kept[i] in files && IsLocaleFile(kept[i]);
    }
    if f :| f in files && IsLocaleFile(f) && ThirdField(f) == code {
      FilterMember(IsLocaleFile, files, f);
      var i :| 0 <= i < |kept| && kept[i] == f;
      assert TimeagoCodes(files)[i] == code;
    }
  }

  /** The usual locale file name `jquery.timeago.<code>.js` yields `<code>`. */
  lemma {:induction false} LocaleFileCode(code: string)
    requires '.' !in code
    ensures IsLocaleFile(LocalePrefix + "." + code + ".js")
    ensures ThirdField(LocalePrefix + "." + code + ".js") == Str(code)
  {
    var f := LocalePrefix + "." + code + ".js";
    assert f == "jquery" + "." + ("timeago" + "." + (code + "." + "js"));
    SplitAtFirst("jquery", "timeago" + "." + (code + "." + "js"), '.');
    SplitAtFirst("timeago", code + "." + "js", '.');
    SplitAtFirst(code, "js", '.');
    SplitWithoutSeparator("js", '.');
    assert StartsWith(f, LocalePrefix) by {
      assert f[..|LocalePrefix|] == LocalePrefix;
    }
  }
}

=== FILE: wrappers.dfy ===
/** Failure-compatible wrappers used throughout the model: `Option` for a value
    that may be absent, and `Result` for a computation that either produces a
    value or throws. Both support the `:-` operator. */
module Wrappers {

  datatype Option<+T> = None | Some(value: T)

  datatype Result<+R, +E> = Success(value: R) | Failure(error: E) {

    predicate IsFailure() {
      Failure?
    }

    function PropagateFailure<U>(): Result<U, E>
      requires Failure?
    {
      Failure(error)
    }

    function Extract(): R
      requires Success?
    {
      value
    }
  }
}
